=== FILE: README.md ===
# TODAK session bookkeeping, modelled in Dafny

TODAK is a voice companion for young children. A child talks to it by pressing
`=` to start and stop a recording. The recording is transcribed, answered by a
dialogue model and read out. A parent supervises through a Telegram bot. The
parent can set a daily time cap, leave a reminder, ask for a growth report and
send messages that are read out to the child. A child's message that names a
parent ("엄마한테 …", "tell mum …") is forwarded to the parent instead of being
answered.

This project models the bookkeeping around those turns as pure functions over
immutable state. "Today", the recorder's result, the transcription, the model's
answer, the report text and the outcome of every send attempt are all inputs.

- `Daily`: the daily cap, the minutes used, the last reset day, the
  conversation count and log, and the report flag. A change of day zeroes the
  four per-day fields together.
- `Reminders`: the single pending reminder (last write wins) and the argument
  handling of `/reminder`.
- `Numbers`: Python's `int()` on ASCII text, used for the typed cap.
- `Text`: substring search, ASCII `lower()`, `str.split()` and `" ".join`.
- `Recording`: the `=` toggle and the capture gate of the audio callback.
- `Dialogue`: the parent-keyword check and the construction of the chat request.
- `Delivery`: the bounded retry used for messages and reports sent to the parent.
- `Reports`: the threshold of three conversations, the once-a-day automatic
  report and the on-demand `/report`.
- `ParentBot`: the decisions of the bot handlers: the parent check, the cap
  buttons and typed cap, `/time`, `/reminder`, `/report`, and relaying a
  parent's message.
- `Session`: one pass of the main loop (`Turn`) and a run of turns on one day
  (`RunDay`).

Where the code departs from what it evidently intends, the model follows the
code:

- A recording that yields no audio ends the session. The recorder's own message
  "음성이 들리지 않았어. 다시 시도해볼까?" ("I didn't hear you, shall we try
  again?", main.py:652 and main.py:871) suggests a retry. In the code,
  `speech_to_text(None)` raises, and the loop's catch-all breaks out of the
  loop.
- The minute is credited as soon as the recorder returns non-empty audio. It
  stays credited when the transcription then fails or comes back empty.
- The persona system message is never sent, and the child's text is sent twice
  (see Findings).
- The automatic report marks the day as reported once a report has been
  produced, whether or not it was delivered.
- `add_usage_time` and `add_conversation` do not reset the day. Within a turn,
  only the budget check at its start resets it, with that turn's date. `/time`,
  `/report` and both cap setters also reset it (main.py:281, 341, 364, 456).
- A forwarded message is still logged and counted as a conversation. Its logged
  answer is the fixed acknowledgement.
- The fixed five-second recording fallback is never taken, because
  `is_recording` is never `None`.
- `/report` answers in the chat directly. It does not use the retrying send.
- The cap buttons check the id of the user who pressed (main.py:318). `/time`,
  `/report`, `/reminder` and plain messages check the id of the chat
  (main.py:276, 360, 395, 446). The typed-cap flag is kept per user
  (main.py:329, 450, 477). In a private chat the two ids are the same. In a
  group chat whose id is the configured one, `/time` shows the buttons but
  every press is refused (`ParentBot.GroupChatButtonsRefused`).

## Model

| member | source | states |
|---|---|---|
| Daily.ResetDailyUsage | main.py:62-71 | on a new day used minutes, count, log and report flag are zeroed together and today is recorded; on the same day nothing changes; the cap always survives |
| Daily.AddUsageTime | main.py:75-79 | adds exactly the given minutes and changes nothing else, the recorded day included |
| Daily.CheckTimeLimit | main.py:82-86 | after the reset, remaining is cap minus used and the turn is allowed exactly when remaining is positive, so never once used reaches the cap |
| Daily.AddConversation | main.py:114-127 | appends exactly one entry and adds one to the count, nothing else changes, and a count that matched the log still matches |
| Daily.ResetIdempotent | main.py:62-71 | resetting twice on one day is resetting once |
| Daily.ResetKeepsCountMatchesLog | main.py:62-71 | after a reset the count matches the log |
| Daily.UsedMonotoneWithinDay | main.py:62-79 | within a day the used minutes never decrease |
| Daily.LastMinuteExhaustsBudget | main.py:82-86 | with cap 30 and 29 used, the check allows a turn; after one more minute it yields not allowed with 0 remaining |
| Reminders.AddReminder | main.py:207-211 | the new reminder replaces any pending one |
| Reminders.GetReminder | main.py:214-217 | reading the reminder returns the pending one and does not consume it |
| Reminders.ClearReminder | main.py:220-224 | after clearing no reminder is pending |
| Reminders.ReminderCommand | main.py:399-426 | no arguments shows the pending reminder, a first argument spelling "clear" in any case clears it, anything else sets the arguments joined by single spaces |
| Reminders.ClearWordAnyCase | main.py:419 | a word clears exactly when it is "clear" with each letter in either case |
| Reminders.LastWriteWins | main.py:207-211 | of two reminders set before delivery only the second is pending |
| Reminders.ClearIgnoresRest | main.py:419-422 | arguments after "clear" are ignored and nothing is pending afterwards |
| Reminders.StoredReminderKeepsWords | main.py:424-426 | splitting a stored reminder on whitespace gives back the command's arguments |
| Text.Find | main.py:691-693 | the scan finds the phrase exactly when it occurs as a substring |
| Text.WordsOfJoin | main.py:425 | joining words with single spaces and splitting again returns the same words |
| Numbers.ParseInt | main.py:452 | a number is read only when the stripped text is non-empty and ends in a digit; a negative number is read only from text starting with a minus sign |
| Numbers.ParseShowRoundTrip | main.py:452 | every integer written in decimal reads back as that integer |
| Numbers.StripPadding | main.py:452 | stripping removes exactly the blanks around text that has none at either end |
| Numbers.BlankIsNotANumber | main.py:469-475 | empty or all-blank text is never a number |
| Numbers.ParseIgnoresPadding | main.py:452 | blanks before and after the text do not change what is read |
| Numbers.WellFormedParses | main.py:452 | any run of digits with single underscores between digits is read as the number the digits spell |
| Numbers.SignedWellFormedParses | main.py:452 | such a run after a minus sign is read negated, after a plus sign unchanged |
| Numbers.ParsedIsWellFormed | main.py:452-469 | unpadded text is read only when it is a digit run with single underscores between digits, possibly after one sign, so a leading underscore is refused; with the two lemmas above this is an if-and-only-if |
| Numbers.BadCharacterRejected | main.py:469-475 | two underscores in a row, or a character that is not a digit, an underscore or a leading sign, make the text not a number |
| Recording.OnKeyPress | main.py:233-244 | the `=` key flips the recording flag; any other character or a key without one leaves it |
| Recording.AudioCallback | main.py:227-230 | a chunk is queued if and only if recording is on, and nothing else changes |
| Recording.ToggleParity | main.py:233-244 | after any key sequence the flag is flipped exactly when `=` was pressed an odd number of times |
| Recording.CaptureAppendsOnly | main.py:227-244 | capture only appends to the queue, at most one chunk per callback, and nothing while the flag stays off |
| Dialogue.CheckParentMessageRequest | main.py:687-694 | true exactly when one of the eight fixed phrases occurs in the text |
| Dialogue.BuildMessages | main.py:706-744 | an empty history yields the persona then the text; otherwise the history followed by the text, the text always last |
| Dialogue.RouteMessage | main.py:700-704 | a text with a parent phrase is forwarded unchanged and never asked; any other text is asked with the built messages |
| Dialogue.MumMessageIsForwarded | main.py:689-704 | any text containing "엄마한테" is forwarded, whatever surrounds it |
| Dialogue.PlainMessageIsAsked | main.py:706-744 | a text without any phrase goes to the model with the text last |
| Dialogue.RequestAsWritten | main.py:845-846 | the request the loop builds is the history, then the text twice |
| Dialogue.PersonaNeverSent | main.py:845-846 | a request built by the loop never holds the persona |
| Dialogue.RequestIntended | main.py:706-708 | a first request is the persona and the text; later ones are the history plus the text |
| Dialogue.PersonaOnFirstTurnOnly | main.py:706-744 | with the intended order the persona opens the request exactly on the first turn and the text is last |
| Delivery.AttemptFrom | main.py:187-204 | at most the remaining attempts are made, one fewer pause than attempts, it stops at the first success and exhausts all attempts on failure |
| Delivery.Deliver | main.py:492-509 | no attempt without bot or parent id; otherwise at most 3 attempts and at most 2 pauses of 2 seconds, delivered exactly when one of the first three outcomes succeeds, which is then the last attempt |
| Delivery.FirstAttemptSucceeds | main.py:496-503 | a first-attempt success is one send and no pause |
| Delivery.NoAttemptAfterSuccess | main.py:496-503 | outcomes after the successful attempt do not matter, so nothing is sent twice |
| Reports.GenerateGrowthReport | main.py:130-133 | fewer than three logged conversations never yield a report |
| Reports.AutoReportStep | main.py:857-864 | a report is sent exactly when the count is at least 3, the flag is unset and a non-empty report came back; the flag is set exactly then |
| Reports.AutoReportOncePerDay | main.py:857-864 | once the flag is set the automatic trigger sends nothing and changes nothing |
| Reports.NoAutoReportBelowThreshold | main.py:130-133 | below three conversations the automatic trigger sends nothing |
| Reports.OnDemandReport | main.py:364-382 | after the reset, fewer than three entries give one reply with the missing count; otherwise a "generating" notice followed by the report or a failure reply |
| Reports.OnDemandIgnoresFlag | main.py:364-382 | the on-demand reply does not depend on the report flag and leaves it unchanged |
| ParentBot.IsParent | main.py:276 | an id is the parent's exactly when a parent id is configured and equals it; with none configured nobody is the parent |
| ParentBot.PresetMinutes | main.py:332-340 | `time_15`, `time_30` and `time_45` map to 15, 30 and 45, and nothing else maps |
| ParentBot.TimeCallback | main.py:310-347 | a press by any user but the parent is refused; the custom button only sets that user's waiting flag; a preset sets the cap and resets for today; other payloads change nothing |
| ParentBot.HandleParentMessage | main.py:444-482 | messages outside the parent's chat change nothing; while the writer's typed cap is awaited that flag is always cleared and the cap changes only for an integer in 5..120; otherwise the text is queued for the child |
| ParentBot.CapChangeKeepsUsage | main.py:339-341 | setting the cap on the same day leaves the used minutes and the log unchanged |
| ParentBot.TypedCapInRange | main.py:450-478 | in the parent's private chat, the custom button followed by a decimal number sets the cap exactly when the number is in 5..120, and the waiting flag ends cleared |
| ParentBot.TimeCommand | main.py:271-282 | the parent's chat sees cap, used and remaining after the reset; other chats are refused with no reset |
| ParentBot.ReminderCommandFrom | main.py:392-434 | only a command in the parent's chat acts on the reminder; others leave it unchanged |
| ParentBot.ReportCommandFrom | main.py:357-382 | only a request in the parent's chat resets and answers; others change nothing |
| ParentBot.StrangersChangeNothing | main.py:318-320 | no handler changes the day, the bot state or the reminder for a user outside the parent's chat |
| ParentBot.GroupChatButtonsRefused | main.py:276-278 | in a group chat with the parent's chat id, `/time` shows the buttons but a press by a user with another id is refused and changes nothing |
| ParentBot.RelayKeepsOrder | main.py:480-482 | the parent's plain messages are queued for the child in the order sent |
| Session.FinishTurn | main.py:849-866 | the exchange is logged and counted once, the answer is spoken after the earlier effects, the reminder is kept, and nothing but the log, the count and the report flag changes in the day |
| Session.Respond | main.py:836-855 | a pending reminder is spoken first and cleared; a forwarded text never reaches the model; otherwise the loop's request is what the model gets; the turn crashes only when the model call fails, and then the day is unchanged; a forwarded or answered text is logged once with its answer and counted; nothing but the log, the count and the report flag changes in the day |
| Session.Turn | main.py:816-871 | the day ends up reset to today with the cap kept; the turn ends the loop for lack of time exactly when the check refuses; exactly one minute is added when audio was recorded |
| Session.TurnSilenceRetries | main.py:826-832 | with no audio and time left the corrected turn continues without using a minute; in every other case, the out-of-time case included, it is the turn as written |
| Session.TurnOutcome | main.py:826-871 | with time left: no audio or a failed transcription ends the loop with nothing logged; an empty transcript continues with nothing logged; a forwarded or answered text is logged once and counted; a failed model call ends the loop with nothing logged |
| Session.SilenceEndsSession | main.py:826-832 | as written, a turn with no audio ends the session |
| Session.SilenceRetriesFreely | main.py:869-871 | with the correction a silent turn continues with no effects and no minute used |
| Session.TurnKeepsCountMatchesLog | main.py:852 | every turn keeps the count equal to the log length |
| Session.LastMinuteTurn | main.py:817-830 | with cap 30 and 29 used, one recorded turn is allowed and afterwards the check yields not allowed with 0 remaining |
| Session.RespondNeverSendsPersona | main.py:836-855 | a response keeps a persona-free history persona-free and its request holds no persona |
| Session.TurnNeverSendsPersona | main.py:845-846 | starting from a history without the persona, no turn puts the persona in its request or its history |
| Session.ForwardedTurnIsLogged | main.py:845-852 | a forwarded text is sent to the parent, not asked, answered with the acknowledgement, and still logged and counted |
| Session.ReminderSpokenOnce | main.py:836-843 | a pending reminder is the first thing spoken in the next turn that hears something, and none is pending afterwards |
| Session.FinishTurnReports | main.py:856-864 | the end of a turn sends at most one report; it sends one exactly when the report is due and non-empty, and the day is then marked |
| Session.RespondReports | main.py:856-864 | a responding turn sends at most one report and none on an already reported day |
| Session.TurnReports | main.py:856-864 | any turn sends at most one report, marks the day when it does, and sends none on a day already reported |
| Session.RunDay | main.py:806-878 | the loop takes no more turns than inputs and stops early only on a turn that does not continue; a non-empty run leaves the day reset to today with the cap kept; a run that ends for lack of time ends with the farewell; the first turn's effects come first |
| Session.RunDayStopsAtFirst | main.py:817-878 | the run is exactly the run of the turns it took, and every shorter run of those turns continued, so the loop breaks at the first farewell or crash |
| Session.RunDayKeepsCountMatchesLog | main.py:849-852 | a run from a state whose count matches its log keeps them matching |
| Session.StartKeepsCountMatchesLog | main.py:806-878 | from the state the process starts in, every run keeps the count equal to the log |
| Session.AtMostOneReportPerDay | main.py:856-864 | over any run of turns on one day at most one automatic report is sent, and none if the day was already reported |
| Session.ThirdTurnReports | main.py:856-864 | the turn that logs the third conversation sends the report and a fourth turn that day sends none |

## Left out

- Speech-to-text, chat completion and text-to-speech calls are external providers. Their results are inputs: a transcript, an answer or a report text, or `None` when the call raised.
- The prompt text of the growth report (main.py:135-177) is provider input and is not modelled. The persona prompt is the single `Persona` message, and its wording is not modelled.
- The audio stream lifecycle, the waiting loops of `record_audio_with_toggle`, WAV encoding and the float-to-16-bit rescaling (main.py:51-59, 576-653) are device I/O and numerics. The recorder's result is an input.
- The keyboard listener thread and the parent-message polling task `check_parent_messages` (main.py:247-259, 753-766) exist for concurrency. Only the toggle, the capture gate and the enqueueing of parent messages are modelled.
- Telegram start-up, handler registration, polling and `start_command` (main.py:263-268, 512-573) are transport plumbing. So are reply wording, keyboards and failures of `reply_text`/`edit_message_text`. Replies are constructors naming which reply is sent.
- `ffplay` playback, console printing, `input()` when there is no listener, and `datetime.now()` are I/O or the clock. "Today" and the `%H:%M` text are inputs.
- Audio device diagnostics (main.py:89-111) and the start-up display and teardown in `main` (main.py:770-804, 873-875, 880-892) are not modelled.
- Delivery.Deliver: bounds the total pause at 2 × 2 seconds but does not model the clock, so it says nothing about when each attempt happens.
- Numbers.ParseInt: reads ASCII only. Python's `int()` also accepts non-ASCII decimal digits and Unicode whitespace.
- Numbers.ParseInt: has no digit limit. Python's `int()` raises on text with more than 4300 digits (`sys.int_max_str_digits`). At main.py:452 the text is one Telegram message, which holds at most 4096 characters, so the limit cannot be reached there.
- Text.Words: splits on the six ASCII whitespace characters only. `str.split()` also splits at the separators `\x1c` to `\x1f` and at non-ASCII spaces.
- Text.Lower: lowers ASCII letters only. No other character lowers to a letter of "clear", so the reminder's clear test is unaffected.
- Session.ReminderSpokenOnce: does not show that the next turn never speaks the same words. An answer could happen to equal the reminder sentence; the lemma shows only that no reminder is pending.
- A dialogue answer whose content is `None` is not modelled. Answers are strings.
- Each bot handler runs as one step between turns. In the program, handlers run on the event loop and can interleave with a turn at its awaits (for example main.py:507 and main.py:605). The model does not cover a cap or reminder change that lands in the middle of a turn.

## Findings

| source | as written | input that shows it | evidently intended | confidence | as-written member | corrected member |
|---|---|---|---|---|---|---|
| main.py:845-846 | the child's text is appended to the history before `get_gpt_response` builds the request from that history, so the history is never empty there: the persona message is never sent and the text appears twice | the first turn, history empty, text "안녕" | the first request is the persona and the text; later requests hold the text once | high, not executed | Dialogue.RequestAsWritten (shown by Dialogue.PersonaNeverSent, Session.TurnNeverSendsPersona) | Dialogue.RequestIntended (proved by Dialogue.PersonaOnFirstTurnOnly) |
| main.py:826-832 | `speech_to_text` is called even when the recorder returned `None`; building the WAV from `None` raises and the loop's catch-all ends the session | `=` pressed twice before any chunk arrives, so the recorder returns `None` | say nothing was heard and start the next turn without using a minute, as the message at main.py:871 suggests | medium, not executed | Session.Turn (shown by Session.SilenceEndsSession) | Session.TurnSilenceRetries (proved by Session.SilenceRetriesFreely) |

`Session.Turn` keeps both behaviours as written, because it models the code.
The corrected members sit beside it and are not used by `RunDay`.

=== FILE: basics.dfy ===
/** Shared vocabulary of the companion model: optional values, calendar days
    and Python's truthiness of an optional text. */
module Basics {

  /** A value that may be absent (Python's `None`). */
  datatype Option<+T> = None | Some(value: T)

  /** A calendar day as `date.today()` reports it. Only equality between
      days matters to the session logic. */
  datatype Date = Date(year: int, month: int, day: int)

  /** `if x:` on a value that is `None` or a `str`: true exactly when the
      value is present and non-empty. */
  predicate Truthy(o: Option<string>)
  {
    o.Some? && o.value != ""
  }
}

=== FILE: daily.dfy ===
/** The per-day bookkeeping of the companion: the daily cap, the minutes
    used today, the day of the last reset, today's conversation count and
    log, and whether today's growth report has been produced. The four
    per-day fields are zeroed together when the calendar day changes. */
module Daily {
  import opened Basics

  /** One logged exchange: the `%H:%M` clock text, what the child said and
      what the companion answered. */
  datatype Conversation = Conversation(timestamp: string, user: string, ai: string)

  datatype DailyState = DailyState(
    cap: int,                      // daily_time_limit, minutes
    used: int,                     // daily_usage_time, minutes
    lastReset: Option<Date>,       // last_reset_date (None before the first reset)
    count: int,                    // conversation_count
    log: seq<Conversation>,        // daily_conversations
    reportGenerated: bool          // report_generated
  )

  /** The cap the process starts with. */
  const DefaultCap: int := 30

  /** The state at process start: nothing used, no day recorded yet. */
  const Initial: DailyState := DailyState(DefaultCap, 0, None, 0, [], false)

  /** The conversation counter agrees with the log it counts. */
  predicate CountMatchesLog(d: DailyState)
  {
    d.count == |d.log|
  }

  /** `reset_daily_usage` with `date.today()` supplied as `today`. */
  function ResetDailyUsage(d: DailyState, today: Date): (r: DailyState)
    ensures r.cap == d.cap
    ensures r.lastReset == Some(today)
    ensures d.lastReset == Some(today) ==> r == d
    ensures d.lastReset != Some(today) ==>
              r.used == 0 && r.count == 0 && r.log == [] && !r.reportGenerated
  {
    if d.lastReset != Some(today) then
      d.(used := 0, lastReset := Some(today), count := 0, log := [], reportGenerated := false)
    else d
  }

  /** `add_usage_time`: credits minutes without looking at the date. */
  function AddUsageTime(d: DailyState, minutes: int): (r: DailyState)
    ensures r.used == d.used + minutes
    ensures r.(used := d.used) == d
  {
    d.(used := d.used + minutes)
  }

  /** What the budget check answers: whether a turn may start, the minutes
      left, and the state after the reset it performs. */
  datatype LimitCheck = LimitCheck(allowed: bool, remaining: int, day: DailyState)

  /** `check_time_limit`: reset for today, then the remaining minutes and
      whether any are left. */
  function CheckTimeLimit(d: DailyState, today: Date): (r: LimitCheck)
    ensures r.day == ResetDailyUsage(d, today)
    ensures r.remaining == r.day.cap - r.day.used
    ensures r.allowed <==> r.remaining > 0
    ensures r.day.used >= r.day.cap ==> !r.allowed
  {
    var d' := ResetDailyUsage(d, today);
    var remaining := d'.cap - d'.used;
    LimitCheck(remaining > 0, remaining, d')
  }

  /** `add_conversation`: appends one entry and counts it, without looking
      at the date. */
  function AddConversation(d: DailyState, timestamp: string, user: string, ai: string): (r: DailyState)
    ensures r.log == d.log + [Conversation(timestamp, user, ai)]
    ensures r.count == d.count + 1
    ensures r.(log := d.log, count := d.count) == d
    ensures CountMatchesLog(d) ==> CountMatchesLog(r)
  {
    d.(log := d.log + [Conversation(timestamp, user, ai)], count := d.count + 1)
  }

  /** Resetting twice on the same day is resetting once. */
  lemma ResetIdempotent(d: DailyState, today: Date)
    ensures ResetDailyUsage(ResetDailyUsage(d, today), today) == ResetDailyUsage(d, today)
  {
  }

  /** After a reset the counter matches the log, whatever it was before on a
      new day, and stays as it was on the same day. */
  lemma ResetKeepsCountMatchesLog(d: DailyState, today: Date)
    requires CountMatchesLog(d) || d.lastReset != Some(today)
    ensures CountMatchesLog(ResetDailyUsage(d, today))
  {
  }

  /** Minutes used never go down within a day: no operation but the reset
      lowers them, and the reset only does on a new day. */
  lemma UsedMonotoneWithinDay(d: DailyState, today: Date, minutes: nat)
    requires d.lastReset == Some(today)
    ensures ResetDailyUsage(d, today).used == d.used
    ensures AddUsageTime(d, minutes).used >= d.used
  {
  }

  /** The limit scenario: with a cap of 30 and 29 minutes used, crediting
      one minute exhausts the day. */
  lemma LastMinuteExhaustsBudget(d: DailyState, today: Date)
    requires d.lastReset == Some(today) && d.cap == 30 && d.used == 29
    ensures CheckTimeLimit(d, today).allowed
    ensures !CheckTimeLimit(AddUsageTime(d, 1), today).allowed
    ensures CheckTimeLimit(AddUsageTime(d, 1), today).remaining == 0
  {
  }
}

=== FILE: delivery.dfy ===
/** Bounded retry of a message sent to the parent over the bot, as both
    `send_message_to_parent` and `send_report_to_parent` do it: up to three
    attempts, a two-second pause after each failed attempt but the last,
    and nothing at all when the bot or the parent's chat id is missing.
    Whether attempt `k` (counted from 0) goes through is the `k`-th entry of
    `outcomes`; an attempt beyond the end of `outcomes` fails. */
module Delivery {

  const MaxRetries: nat := 3
  const RetryDelaySeconds: nat := 2

  /** What one delivery did: attempts made, pauses taken, and whether the
      message went through. */
  datatype Attempts = Attempts(attempts: nat, waits: nat, delivered: bool)

  /** The text a forwarded child message is sent as. */
  function ChildMessageText(message: string): string
  {
    "아이의 메시지: " + message
  }

  /** The text a growth report is sent as. */
  function ReportText(report: string): string
  {
    "📊 **성장 리포트가 생성되었습니다!**\n\n" + report
  }

  predicate SucceedsAt(outcomes: seq<bool>, k: nat)
  {
    k < |outcomes| && outcomes[k]
  }

  /** Attempts `k`, `k + 1`, ... of the retry loop. */
  function AttemptFrom(k: nat, outcomes: seq<bool>): (r: Attempts)
    requires k < MaxRetries
    ensures 1 <= r.attempts <= MaxRetries - k
    ensures r.waits == r.attempts - 1
    ensures r.delivered <==> exists j :: k <= j < MaxRetries && SucceedsAt(outcomes, j)
    ensures r.delivered ==> SucceedsAt(outcomes, k + r.attempts - 1)
    ensures forall j :: k <= j < k + r.attempts - 1 ==> !SucceedsAt(outcomes, j)
    ensures !r.delivered ==> r.attempts == MaxRetries - k
    decreases MaxRetries - k
  {
    if SucceedsAt(outcomes, k) then Attempts(1, 0, true)
    else if k < MaxRetries - 1 then
      var rest := AttemptFrom(k + 1, outcomes);
      Attempts(rest.attempts + 1, rest.waits + 1, rest.delivered)
    else Attempts(1, 0, false)
  }

  /** One outbound delivery. `linked` is `telegram_app and PARENT_CHAT_ID`. */
  function Deliver(linked: bool, outcomes: seq<bool>): (r: Attempts)
    ensures !linked ==> r == Attempts(0, 0, false)
    ensures r.attempts <= MaxRetries
    ensures r.waits <= MaxRetries - 1
    ensures r.waits * RetryDelaySeconds <= (MaxRetries - 1) * RetryDelaySeconds
    ensures linked ==> r.attempts >= 1 && r.waits == r.attempts - 1
    ensures r.delivered <==> linked && exists j :: 0 <= j < MaxRetries && SucceedsAt(outcomes, j)
    ensures r.delivered ==> SucceedsAt(outcomes, r.attempts - 1)
    ensures forall j :: 0 <= j < r.attempts - 1 ==> !SucceedsAt(outcomes, j)
    ensures linked && !r.delivered ==> r.attempts == MaxRetries && r.waits == MaxRetries - 1
  {
    if linked then AttemptFrom(0, outcomes) else Attempts(0, 0, false)
  }

  /** A first-attempt success sends once and never waits. */
  lemma FirstAttemptSucceeds(outcomes: seq<bool>)
    requires |outcomes| > 0 && outcomes[0]
    ensures Deliver(true, outcomes) == Attempts(1, 0, true)
  {
  }

  /** Once an attempt goes through nothing is sent again, so a message is
      delivered at most once: later outcomes do not change the delivery. */
  lemma NoAttemptAfterSuccess(outcomes: seq<bool>, later: seq<bool>)
    requires Deliver(true, outcomes).delivered
    ensures Deliver(true, outcomes[..Deliver(true, outcomes).attempts] + later)
            == Deliver(true, outcomes)
  {
  }
}

=== FILE: dialogue.dfy ===
/** Routing of what the child said: a message meant for a parent is
    forwarded instead of answered, everything else becomes a chat request
    built from the conversation history. */
module Dialogue {
  import opened Text

  /** The phrases that mark a message for a parent ("tell mum", "tell dad",
      "tell my parents", "pass it on", "say it"). */
  const ParentKeywords: seq<string> :=
    ["엄마한테", "아빠한테", "부모님한테", "엄마에게", "아빠에게", "부모님에게", "전해줘", "말해줘"]

  /** The fixed reply spoken when a message has been forwarded. */
  const ForwardAck: string := "엄마한테 말씀드렸어! 엄마가 곧 답장해줄 거야."

  /** One entry of a chat request. `Persona` is the fixed system message
      that introduces the companion; its wording is not modelled. */
  datatype ChatMessage = Persona | User(content: string) | Assistant(content: string)

  /** The text mentions one of the parent keywords. */
  predicate IsForwardRequest(text: string)
  {
    exists k | k in ParentKeywords :: Contains(text, k)
  }

  /** `check_parent_message_request`: tries the keywords in order and stops
      at the first one found. */
  method CheckParentMessageRequest(text: string) returns (forward: bool)
    ensures forward <==> IsForwardRequest(text)
  {
    var k := 0;
    while k < |ParentKeywords|
      invariant 0 <= k <= |ParentKeywords|
      invariant forall j :: 0 <= j < k ==> !Contains(text, ParentKeywords[j])
    {
      var found := Find(text, ParentKeywords[k]);
      if found {
        return true;
      }
      k := k + 1;
    }
    return false;
  }

  /** The messages `get_gpt_response` sends for `text`: the persona and the
      text when `history` is empty, otherwise the history followed by the
      text. */
  function BuildMessages(text: string, history: seq<ChatMessage>): (m: seq<ChatMessage>)
    ensures |m| == (if |history| == 0 then 2 else |history| + 1)
    ensures m[|m| - 1] == User(text)
    ensures |history| == 0 ==> m[0] == Persona
    ensures |history| > 0 ==> m[..|m| - 1] == history
  {
    if |history| == 0 then [Persona, User(text)] else history + [User(text)]
  }

  /** What `get_gpt_response` does before any provider is contacted. */
  datatype Routing = Forward(message: string) | Ask(messages: seq<ChatMessage>)

  function RouteMessage(text: string, history: seq<ChatMessage>): (r: Routing)
    ensures r.Forward? <==> IsForwardRequest(text)
    ensures r.Forward? ==> r.message == text
    ensures r.Ask? ==> r.messages == BuildMessages(text, history)
  {
    if IsForwardRequest(text) then Forward(text) else Ask(BuildMessages(text, history))
  }

  /** A message holding "엄마한테" (tell mum) is never put to the dialogue
      model. */
  lemma MumMessageIsForwarded(prefix: string, suffix: string, history: seq<ChatMessage>)
    ensures RouteMessage(prefix + "엄마한테" + suffix, history) == Forward(prefix + "엄마한테" + suffix)
  {
    var kw := ParentKeywords[0];
    var t := prefix + kw + suffix;
    assert t[|prefix|..|prefix| + |kw|] == kw;
    assert OccursAt(t, kw, |prefix|);
    assert Contains(t, kw);
    assert kw in ParentKeywords;
  }

  /** A message without any keyword is put to the model with the user's text
      last. */
  lemma PlainMessageIsAsked(text: string, history: seq<ChatMessage>)
    requires forall k :: 0 <= k < |ParentKeywords| ==> !Contains(text, ParentKeywords[k])
    ensures RouteMessage(text, history).Ask?
    ensures RouteMessage(text, history).messages[|RouteMessage(text, history).messages| - 1] == User(text)
  {
  }

  /** The request as the turn loop builds it: the text is appended to the
      history first and then handed over together with that history. */
  function RequestAsWritten(text: string, history: seq<ChatMessage>): (m: seq<ChatMessage>)
    ensures |m| == |history| + 2
    ensures m[..|history|] == history
    ensures m[|history|] == User(text) && m[|history| + 1] == User(text)
  {
    BuildMessages(text, history + [User(text)])
  }

  /** The history handed to `BuildMessages` is never empty, so the persona
      is never part of a request, not even on the first turn, and the
      child's text is sent twice. */
  lemma PersonaNeverSent(text: string, history: seq<ChatMessage>)
    requires forall i :: 0 <= i < |history| ==> history[i] != Persona
    ensures forall i :: 0 <= i < |RequestAsWritten(text, history)| ==>
              RequestAsWritten(text, history)[i] != Persona
  {
  }

  /** The request as the persona rule intends it: built from the history as
      it was before this turn, and only then logged. */
  function RequestIntended(text: string, history: seq<ChatMessage>): (m: seq<ChatMessage>)
    ensures |history| == 0 ==> m == [Persona, User(text)]
    ensures |history| > 0 ==> m == history + [User(text)]
  {
    BuildMessages(text, history)
  }

  /** With the intended order the first request starts with the persona and
      each later one carries the text exactly once, at the end. */
  lemma PersonaOnFirstTurnOnly(text: string, history: seq<ChatMessage>)
    ensures (RequestIntended(text, history)[0] == Persona) <==> (|history| == 0 || history[0] == Persona)
    ensures RequestIntended(text, history)[|RequestIntended(text, history)| - 1] == User(text)
  {
  }
}

=== FILE: numbers.dfy ===
/** Python's `int(text)` on ASCII input, as the custom daily-cap entry uses
    it: surrounding whitespace is ignored, an optional sign may lead, and
    the digits may be grouped by single underscores. Anything else is a
    `ValueError`, modelled as `None`. */
module Numbers {
  import opened Basics
  import opened Text

  predicate IsDigit(c: char)
  {
    '0' <= c <= '9'
  }

  function DigitValue(c: char): (d: nat)
    requires IsDigit(c)
    ensures d < 10
  {
    c as int - '0' as int
  }

  function DigitChar(d: nat): (c: char)
    requires d < 10
    ensures IsDigit(c) && DigitValue(c) == d
  {
    ('0' as int + d) as char
  }

  /** `s.strip()` restricted to the ASCII separators. */
  function Strip(s: string): (t: string)
    ensures |t| <= |s|
    ensures |t| > 0 ==> !IsSpace(t[0]) && !IsSpace(t[|t| - 1])
    decreases |s|
  {
    if |s| > 0 && IsSpace(s[0]) then Strip(s[1..])
    else if |s| > 0 && IsSpace(s[|s| - 1]) then Strip(s[..|s| - 1])
    else s
  }

  /** The digit body `int()` accepts: digits, where an underscore may
      stand only between two digits. */
  predicate WellFormedDigits(t: string)
  {
    && |t| > 0
    && IsDigit(t[0])
    && IsDigit(t[|t| - 1])
    && (forall i :: 0 <= i < |t| ==> IsDigit(t[i]) || t[i] == '_')
    && (forall i :: 0 <= i < |t| - 1 ==> !(t[i] == '_' && t[i + 1] == '_'))
  }

  /** The value the digits spell, underscores ignored. */
  function DigitsValue(t: string): nat
    requires forall i :: 0 <= i < |t| ==> IsDigit(t[i]) || t[i] == '_'
  {
    if |t| == 0 then 0
    else
      var last := t[|t| - 1];
      var front := DigitsValue(t[..|t| - 1]);
      if last == '_' then front else 10 * front + DigitValue(last)
  }

  /** `int(s)` on ASCII text: `Some(n)` when Python returns `n`, `None` when
      it raises. Python's limit on the number of digits it converts is not
      modelled. */
  function ParseInt(s: string): (r: Option<int>)
    ensures r.Some? ==> |Strip(s)| > 0 && IsDigit(Strip(s)[|Strip(s)| - 1])
    ensures r.Some? && r.value < 0 ==> Strip(s)[0] == '-'
  {
    var t := Strip(s);
    if |t| == 0 then None
    else if t[0] == '-' || t[0] == '+' then
      var body := t[1..];
      if WellFormedDigits(body) then
        Some(if t[0] == '-' then -(DigitsValue(body) as int) else DigitsValue(body) as int)
      else None
    else if WellFormedDigits(t) then Some(DigitsValue(t) as int)
    else None
  }

  /** Decimal digits of a natural number, most significant first. */
  function ShowNat(n: nat): (s: string)
    ensures |s| > 0
    ensures forall i :: 0 <= i < |s| ==> IsDigit(s[i])
  {
    if n < 10 then [DigitChar(n)] else ShowNat(n / 10) + [DigitChar(n % 10)]
  }

  /** `str(n)`: an optional minus sign and the decimal digits. */
  function ShowInt(n: int): string
  {
    if n < 0 then "-" + ShowNat(-n) else ShowNat(n)
  }

  lemma {:induction false} DigitsValueOfShowNat(n: nat)
    ensures DigitsValue(ShowNat(n)) == n
    decreases n
  {
    if n >= 10 {
      var s := ShowNat(n);
      assert s[..|s| - 1] == ShowNat(n / 10);
      DigitsValueOfShowNat(n / 10);
    }
  }

  /** What `str` prints, `int` reads back: typing a number in its usual
      decimal form always yields that number. */
  lemma ParseShowRoundTrip(n: int)
    ensures ParseInt(ShowInt(n)) == Some(n)
  {
    var s := ShowInt(n);
    assert Strip(s) == s by {
      assert |s| > 0 && !IsSpace(s[0]) && !IsSpace(s[|s| - 1]);
    }
    if n < 0 {
      assert s[1..] == ShowNat(-n);
      DigitsValueOfShowNat(-n);
    } else {
      DigitsValueOfShowNat(n);
    }
  }

  /** Text with no separator at either end. */
  predicate Unpadded(t: string)
  {
    |t| == 0 || (!IsSpace(t[0]) && !IsSpace(t[|t| - 1]))
  }

  predicate AllBlank(s: string)
  {
    forall i :: 0 <= i < |s| ==> IsSpace(s[i])
  }

  /** Blank text strips to nothing. */
  lemma {:induction false} StripBlank(s: string)
    requires AllBlank(s)
    ensures Strip(s) == ""
    decreases |s|
  {
    if |s| > 0 {
      StripBlank(s[1..]);
    }
  }

  lemma {:induction false} StripTrailing(t: string, post: string)
    requires |t| > 0 && Unpadded(t) && AllBlank(post)
    ensures Strip(t + post) == t
    decreases |post|
  {
    if |post| == 0 {
      assert t + post == t;
    } else {
      var s := t + post;
      assert s[0] == t[0];
      assert s[..|s| - 1] == t + post[..|post| - 1];
      StripTrailing(t, post[..|post| - 1]);
    }
  }

  /** `strip()` removes exactly the blanks around unpadded text. */
  lemma {:induction false} StripPadding(pre: string, t: string, post: string)
    requires AllBlank(pre) && AllBlank(post) && Unpadded(t)
    ensures Strip(pre + t + post) == t
    decreases |pre|
  {
    if |pre| > 0 {
      var s := pre + t + post;
      assert s[0] == pre[0];
      assert s[1..] == pre[1..] + t + post;
      StripPadding(pre[1..], t, post);
    } else if |t| == 0 {
      assert pre + t + post == post;
      StripBlank(post);
    } else {
      assert pre + t + post == t + post;
      StripTrailing(t, post);
    }
  }

  /** Blank or empty text is never a number. */
  lemma BlankIsNotANumber(s: string)
    requires AllBlank(s)
    ensures ParseInt(s) == None
  {
    StripBlank(s);
  }

  /** Blanks around the text do not change what `int()` reads. */
  lemma ParseIgnoresPadding(pre: string, t: string, post: string)
    requires AllBlank(pre) && AllBlank(post) && Unpadded(t)
    ensures ParseInt(pre + t + post) == ParseInt(t)
  {
    StripPadding(pre, t, post);
    StripPadding("", t, "");
    assert "" + t + "" == t;
  }

  /** A run of digits grouped by single underscores is read as the number
      its digits spell. */
  lemma WellFormedParses(t: string)
    requires WellFormedDigits(t)
    ensures ParseInt(t) == Some(DigitsValue(t) as int)
  {
  }

  /** A leading sign in front of such a run negates it or leaves it. */
  lemma SignedWellFormedParses(sign: char, t: string)
    requires sign == '-' || sign == '+'
    requires WellFormedDigits(t)
    ensures ParseInt([sign] + t) == Some(if sign == '-' then -(DigitsValue(t) as int) else DigitsValue(t) as int)
  {
  }

  /** Two underscores in a row, or a character that is neither a digit, an
      underscore nor a leading sign, make the text not a number. */
  lemma BadCharacterRejected(t: string, i: int)
    requires Unpadded(t) && 0 <= i < |t|
    requires (i + 1 < |t| && t[i] == '_' && t[i + 1] == '_')
             || (!IsDigit(t[i]) && t[i] != '_' && (i > 0 || (t[i] != '-' && t[i] != '+')))
    ensures ParseInt(t) == None
  {
  }

  /** The converse: unpadded text is read only when it is a well-formed digit
      run, possibly after one sign. With `WellFormedParses` and
      `SignedWellFormedParses` this characterises what `int()` accepts. */
  lemma ParsedIsWellFormed(t: string)
    requires Unpadded(t) && ParseInt(t).Some?
    ensures WellFormedDigits(t) || ((t[0] == '-' || t[0] == '+') && WellFormedDigits(t[1..]))
  {
  }
}

=== FILE: parentbot.dfy ===
/** The decision logic of the parent-side bot handlers: who may use them,
    how the daily cap is chosen from the preset buttons or typed in, how
    `/reminder`, `/report` and `/time` answer, and where a parent's plain
    message goes. Reply wording and keyboards are not modelled; each reply
    is a constructor naming which reply is sent. */
module ParentBot {
  import opened Basics
  import opened Daily
  import opened Numbers
  import opened Reminders
  import opened Reports

  /** Who an update comes from: the user who acted and the chat it arrived
      in. The button handler checks the user, every other handler checks
      the chat; in a private chat with the bot the two ids are the same. */
  datatype Sender = Sender(user: string, chat: string)

  /** A message in the private chat of user `id`. */
  function Private(id: string): (s: Sender)
    ensures s.user == id && s.chat == id
  {
    Sender(id, id)
  }

  /** Bot-side state: the users whose next plain message is read as a typed
      cap (`waiting_for_custom_time`, kept in each user's own data), and the
      queue of parent messages waiting to be read out to the child. */
  datatype Bot = Bot(awaitingCap: set<string>, inbound: seq<string>)

  /** The bounds a typed cap must lie in. */
  const MinCustomCap: int := 5
  const MaxCustomCap: int := 120

  /** `str(id) == PARENT_CHAT_ID`; with no parent configured nobody matches. */
  predicate IsParent(parentId: Option<string>, id: string)
  {
    parentId == Some(id)
  }

  /** The minutes behind each preset button. */
  function PresetMinutes(data: string): (r: Option<int>)
    ensures data == "time_15" ==> r == Some(15)
    ensures data == "time_30" ==> r == Some(30)
    ensures data == "time_45" ==> r == Some(45)
    ensures r.Some? <==> data in ["time_15", "time_30", "time_45"]
  {
    if data == "time_15" then Some(15)
    else if data == "time_30" then Some(30)
    else if data == "time_45" then Some(45)
    else None
  }

  datatype CallbackReply = CallbackRejected | AskCustomMinutes | CapSet(minutes: int) | NoCallbackReply

  /** The day and bot state after a button press, and the reply shown. */
  datatype CallbackOutcome = CallbackOutcome(day: DailyState, bot: Bot, reply: CallbackReply)

  /** `time_callback`: a preset button sets the cap (then resets for today),
      the custom button only arms the typed entry for the user who pressed
      it, and any other `time_` payload does nothing. The check is on the
      user who pressed, not on the chat. */
  function TimeCallback(parentId: Option<string>, sender: Sender, data: string, today: Date,
                        d: DailyState, bot: Bot): (r: CallbackOutcome)
    ensures !IsParent(parentId, sender.user) ==> r == CallbackOutcome(d, bot, CallbackRejected)
    ensures IsParent(parentId, sender.user) && data == "time_custom" ==>
              r == CallbackOutcome(d, bot.(awaitingCap := bot.awaitingCap + {sender.user}), AskCustomMinutes)
    ensures IsParent(parentId, sender.user) && PresetMinutes(data).Some? ==>
              r.day == ResetDailyUsage(d.(cap := PresetMinutes(data).value), today)
              && r.bot == bot && r.reply == CapSet(PresetMinutes(data).value)
    ensures IsParent(parentId, sender.user) && data != "time_custom" && PresetMinutes(data).None? ==>
              r == CallbackOutcome(d, bot, NoCallbackReply)
  {
    if !IsParent(parentId, sender.user) then CallbackOutcome(d, bot, CallbackRejected)
    else if data == "time_custom" then
      CallbackOutcome(d, bot.(awaitingCap := bot.awaitingCap + {sender.user}), AskCustomMinutes)
    else match PresetMinutes(data)
      case Some(m) => CallbackOutcome(ResetDailyUsage(d.(cap := m), today), bot, CapSet(m))
      case None => CallbackOutcome(d, bot, NoCallbackReply)
  }

  datatype MessageReply =
    | NotForwarded            // the chat is not the parent's: nothing happens
    | CapAccepted(minutes: int)
    | CapOutOfRange           // a number, but outside 5..120
    | CapNotANumber           // `int()` refused the text
    | Relayed                 // queued to be read out to the child

  /** The day and bot state after a plain message, and the reply sent. */
  datatype MessageOutcome = MessageOutcome(day: DailyState, bot: Bot, reply: MessageReply)

  /** A typed cap is accepted. */
  predicate AcceptableCap(text: string)
  {
    ParseInt(text).Some? && MinCustomCap <= ParseInt(text).value <= MaxCustomCap
  }

  /** `handle_parent_message`. The chat must be the parent's; the typed-cap
      flag read is that of the user who wrote. When a typed cap is awaited
      the text is read as one and, whatever the outcome, that user's flag is
      dropped (the `finally` clause). Otherwise the text joins the queue for
      the child. */
  function HandleParentMessage(parentId: Option<string>, sender: Sender, text: string, today: Date,
                               d: DailyState, bot: Bot): (r: MessageOutcome)
    ensures !IsParent(parentId, sender.chat) ==> r == MessageOutcome(d, bot, NotForwarded)
    ensures IsParent(parentId, sender.chat) && sender.user in bot.awaitingCap ==>
              r.bot == bot.(awaitingCap := bot.awaitingCap - {sender.user})
    ensures IsParent(parentId, sender.chat) && sender.user in bot.awaitingCap && AcceptableCap(text) ==>
              r.day == ResetDailyUsage(d.(cap := ParseInt(text).value), today)
              && r.reply == CapAccepted(ParseInt(text).value)
    ensures IsParent(parentId, sender.chat) && sender.user in bot.awaitingCap && !AcceptableCap(text) ==>
              r.day == d && r.reply == (if ParseInt(text).None? then CapNotANumber else CapOutOfRange)
    ensures IsParent(parentId, sender.chat) && sender.user !in bot.awaitingCap ==>
              r == MessageOutcome(d, bot.(inbound := bot.inbound + [text]), Relayed)
  {
    if !IsParent(parentId, sender.chat) then MessageOutcome(d, bot, NotForwarded)
    else if sender.user in bot.awaitingCap then
      var done := bot.(awaitingCap := bot.awaitingCap - {sender.user});
      match ParseInt(text)
      case None => MessageOutcome(d, done, CapNotANumber)
      case Some(n) =>
        if MinCustomCap <= n <= MaxCustomCap then MessageOutcome(ResetDailyUsage(d.(cap := n), today), done, CapAccepted(n))
        else MessageOutcome(d, done, CapOutOfRange)
    else MessageOutcome(d, bot.(inbound := bot.inbound + [text]), Relayed)
  }

  /** Choosing a cap on the same day never touches the minutes already used,
      whether by button or typed. */
  lemma CapChangeKeepsUsage(parentId: Option<string>, sender: Sender, data: string, text: string,
                            today: Date, d: DailyState, bot: Bot)
    requires d.lastReset == Some(today)
    ensures TimeCallback(parentId, sender, data, today, d, bot).day.used == d.used
    ensures HandleParentMessage(parentId, sender, text, today, d, bot).day.used == d.used
    ensures TimeCallback(parentId, sender, data, today, d, bot).day.log == d.log
    ensures HandleParentMessage(parentId, sender, text, today, d, bot).day.log == d.log
  {
  }

  /** In the parent's private chat, the typed number `n` becomes the cap
      exactly when it lies in 5..120; the custom button followed by the
      number in its usual decimal form sets that cap, and the entry is
      disarmed afterwards whatever was typed. */
  lemma {:induction false} TypedCapInRange(parentId: Option<string>, n: int, today: Date, d: DailyState, bot: Bot)
    requires parentId.Some?
    ensures var parent := Private(parentId.value);
            var armed := TimeCallback(parentId, parent, "time_custom", today, d, bot);
            var typed := HandleParentMessage(parentId, parent, ShowInt(n), today, armed.day, armed.bot);
            && (typed.reply == CapAccepted(n) <==> MinCustomCap <= n <= MaxCustomCap)
            && (MinCustomCap <= n <= MaxCustomCap ==> typed.day.cap == n)
            && (!(MinCustomCap <= n <= MaxCustomCap) ==> typed.day == d && typed.reply == CapOutOfRange)
            && parentId.value !in typed.bot.awaitingCap
  {
    ParseShowRoundTrip(n);
  }

  /** `time_command`: after resetting for today, the cap, today's usage and
      what is left. */
  datatype TimeStatus = TimeRejected | TimeShown(cap: int, used: int, remaining: int)

  datatype TimeOutcome = TimeOutcome(day: DailyState, status: TimeStatus)

  function TimeCommand(parentId: Option<string>, sender: Sender, today: Date, d: DailyState): (r: TimeOutcome)
    ensures !IsParent(parentId, sender.chat) ==> r == TimeOutcome(d, TimeRejected)
    ensures IsParent(parentId, sender.chat) ==>
              r.day == ResetDailyUsage(d, today)
              && r.status == TimeShown(r.day.cap, r.day.used, CheckTimeLimit(d, today).remaining)
  {
    if !IsParent(parentId, sender.chat) then TimeOutcome(d, TimeRejected)
    else
      var d' := ResetDailyUsage(d, today);
      TimeOutcome(d', TimeShown(d'.cap, d'.used, d'.cap - d'.used))
  }

  /** The reply to `/reminder` (`None` stands for the rejection reply) and
      the reminder pending afterwards. */
  datatype ReminderOutcome = ReminderOutcome(action: Option<ReminderAction>, reminder: Reminder)

  /** `reminder_command`: only the parent's chat may read, set or clear the
      reminder. */
  function ReminderCommandFrom(parentId: Option<string>, sender: Sender, current: Reminder, args: seq<string>)
    : (r: ReminderOutcome)
    ensures !IsParent(parentId, sender.chat) ==> r == ReminderOutcome(None, current)
    ensures IsParent(parentId, sender.chat) ==>
              r.action == Some(ReminderCommand(current, args).action)
              && r.reminder == ReminderCommand(current, args).reminder
  {
    if !IsParent(parentId, sender.chat) then ReminderOutcome(None, current)
    else
      var update := ReminderCommand(current, args);
      ReminderOutcome(Some(update.action), update.reminder)
  }

  /** The state after `/report` and its replies (`None` stands for the
      rejection reply, and then nothing is reset). */
  datatype ReportOutcome = ReportOutcome(day: DailyState, replies: Option<seq<ReportReply>>)

  /** `report_command`: only the parent's chat may ask. */
  function ReportCommandFrom(parentId: Option<string>, sender: Sender, today: Date, d: DailyState,
                             generated: Option<string>): (r: ReportOutcome)
    ensures !IsParent(parentId, sender.chat) ==> r == ReportOutcome(d, None)
    ensures IsParent(parentId, sender.chat) ==>
              r.day == ResetDailyUsage(d, today) && r.replies == Some(OnDemandReport(d, today, generated).replies)
  {
    if !IsParent(parentId, sender.chat) then ReportOutcome(d, None)
    else
      var answer := OnDemandReport(d, today, generated);
      ReportOutcome(answer.day, Some(answer.replies))
  }

  /** Nobody outside the configured parent's chat changes anything through
      the bot. */
  lemma StrangersChangeNothing(parentId: Option<string>, sender: Sender, today: Date, d: DailyState,
                               bot: Bot, data: string, text: string, current: Reminder, args: seq<string>,
                               generated: Option<string>)
    requires !IsParent(parentId, sender.user) && !IsParent(parentId, sender.chat)
    ensures TimeCallback(parentId, sender, data, today, d, bot).day == d
    ensures TimeCallback(parentId, sender, data, today, d, bot).bot == bot
    ensures HandleParentMessage(parentId, sender, text, today, d, bot).day == d
    ensures HandleParentMessage(parentId, sender, text, today, d, bot).bot == bot
    ensures ReminderCommandFrom(parentId, sender, current, args).reminder == current
    ensures ReportCommandFrom(parentId, sender, today, d, generated).day == d
    ensures TimeCommand(parentId, sender, today, d).day == d
  {
  }

  /** In a group chat whose id is the configured one, `/time` shows the
      buttons, but a press by any member other than a user with that very
      id is refused: the command checks the chat, the button the user. */
  lemma GroupChatButtonsRefused(parentId: Option<string>, sender: Sender, data: string, today: Date,
                                d: DailyState, bot: Bot)
    requires parentId == Some(sender.chat) && sender.user != sender.chat
    ensures TimeCommand(parentId, sender, today, d).status.TimeShown?
    ensures TimeCallback(parentId, sender, data, today, d, bot) == CallbackOutcome(d, bot, CallbackRejected)
  {
  }

  /** Parent messages reach the child in the order they were sent: relaying
      only ever appends to the queue. */
  lemma RelayKeepsOrder(parentId: Option<string>, sender: Sender, first: string, second: string, today: Date,
                        d: DailyState, bot: Bot)
    requires IsParent(parentId, sender.chat) && sender.user !in bot.awaitingCap
    ensures var a := HandleParentMessage(parentId, sender, first, today, d, bot);
            var b := HandleParentMessage(parentId, sender, second, today, a.day, a.bot);
            b.bot.inbound == bot.inbound + [first, second]
  {
  }
}

=== FILE: recording.dfy ===
/** The recording toggle and the capture gate. The key listener flips one
    flag on the `=` key; the audio callback copies a chunk into the capture
    queue only while that flag is on. */
module Recording {

  /** A key event as the listener sees it: a key that carries a character,
      or a special key (shift, arrows, ...) that has none. */
  datatype Key = CharKey(c: char) | SpecialKey

  /** The character that starts and stops a recording. */
  const ToggleChar: char := '='

  /** A chunk of samples delivered by the audio device; its contents are
      not inspected. */
  type Chunk = seq<int>

  /** `on_key_press`: the new value of `is_recording`. */
  function OnKeyPress(recording: bool, key: Key): (r: bool)
    ensures key == CharKey(ToggleChar) ==> r == !recording
    ensures key != CharKey(ToggleChar) ==> r == recording
  {
    match key
    case CharKey(c) =>
      if c == ToggleChar && !recording then true
      else if c == ToggleChar && recording then false
      else recording
    case SpecialKey => recording
  }

  /** `audio_callback`: the capture queue after one device callback. */
  function AudioCallback(recording: bool, queue: seq<Chunk>, chunk: Chunk): (q: seq<Chunk>)
    ensures q == queue + [chunk] <==> recording
    ensures !recording ==> q == queue
  {
    if recording then queue + [chunk] else queue
  }

  /** How many toggle presses a key sequence contains. */
  function TogglePresses(keys: seq<Key>): nat
  {
    if |keys| == 0 then 0
    else TogglePresses(keys[..|keys| - 1]) + (if keys[|keys| - 1] == CharKey(ToggleChar) then 1 else 0)
  }

  /** The flag after the listener has seen `keys` in order. */
  function AfterKeys(recording: bool, keys: seq<Key>): bool
  {
    if |keys| == 0 then recording
    else OnKeyPress(AfterKeys(recording, keys[..|keys| - 1]), keys[|keys| - 1])
  }

  /** The flag only depends on how often `=` was pressed: it is flipped
      exactly when that number is odd, whatever other keys came in between. */
  lemma {:induction false} ToggleParity(recording: bool, keys: seq<Key>)
    ensures AfterKeys(recording, keys) == (recording != (TogglePresses(keys) % 2 == 1))
    decreases |keys|
  {
    if |keys| > 0 {
      ToggleParity(recording, keys[..|keys| - 1]);
    }
  }

  /** Events reaching the capture side: a key press or a device callback. */
  datatype Signal = Press(key: Key) | Callback(chunk: Chunk)

  /** The recording flag and the capture queue. */
  datatype Captured = Captured(recording: bool, queue: seq<Chunk>)

  /** The recording flag and the capture queue after a run of signals. */
  function Capture(recording: bool, queue: seq<Chunk>, signals: seq<Signal>): Captured
    decreases |signals|
  {
    if |signals| == 0 then Captured(recording, queue)
    else match signals[0]
      case Press(k) => Capture(OnKeyPress(recording, k), queue, signals[1..])
      case Callback(c) => Capture(recording, AudioCallback(recording, queue, c), signals[1..])
  }

  /** How many device callbacks a run of signals holds. */
  function Callbacks(signals: seq<Signal>): nat
  {
    if |signals| == 0 then 0
    else (if signals[0].Callback? then 1 else 0) + Callbacks(signals[1..])
  }

  /** Capture never drops or reorders queued chunks, adds at most one chunk
      per callback, and adds nothing while the flag stays off. */
  lemma {:induction false} CaptureAppendsOnly(recording: bool, queue: seq<Chunk>, signals: seq<Signal>)
    ensures queue <= Capture(recording, queue, signals).queue
    ensures |Capture(recording, queue, signals).queue| <= |queue| + Callbacks(signals)
    ensures !recording && (forall i :: 0 <= i < |signals| ==> signals[i] != Press(CharKey(ToggleChar)))
            ==> Capture(recording, queue, signals) == Captured(false, queue)
    decreases |signals|
  {
    if |signals| > 0 {
      var rest := signals[1..];
      assert forall i :: 0 <= i < |rest| ==> rest[i] == signals[i + 1];
      match signals[0]
      case Press(k) =>
        CaptureAppendsOnly(OnKeyPress(recording, k), queue, rest);
      case Callback(c) =>
        CaptureAppendsOnly(recording, AudioCallback(recording, queue, c), rest);
    }
  }
}

=== FILE: reminders.dfy ===
/** The single pending reminder a parent can leave for the child, and the
    argument handling of the `/reminder` command. There is no queue: the
    last reminder set is the one that stays. */
module Reminders {
  import opened Basics
  import opened Text

  /** `current_reminder`. */
  type Reminder = Option<string>

  /** `add_reminder`: replaces whatever was pending. */
  function AddReminder(current: Reminder, text: string): (r: Reminder)
    ensures r == Some(text)
  {
    Some(text)
  }

  /** `get_reminder`: the pending reminder, if any, without consuming it. */
  function GetReminder(current: Reminder): (r: Option<string>)
    ensures r == current
  {
    current
  }

  /** `clear_reminder`. */
  function ClearReminder(current: Reminder): (r: Reminder)
    ensures r.None?
  {
    None
  }

  /** The first argument asks to clear: `args[0].lower() == "clear"`. */
  predicate IsClearWord(w: string)
  {
    Lower(w) == "clear"
  }

  /** What `/reminder` does with its arguments, once the sender is known to
      be the parent. */
  datatype ReminderAction =
    | ShowCurrent(current: Option<string>)   // no arguments: report the pending one
    | Cleared                                // first argument is "clear", any case
    | SetTo(text: string)                    // anything else: the arguments, space-joined

  /** What `/reminder` answered and the reminder pending afterwards. */
  datatype ReminderUpdate = ReminderUpdate(action: ReminderAction, reminder: Reminder)

  /** The argument logic of `reminder_command` and its effect on the pending
      reminder. */
  function ReminderCommand(current: Reminder, args: seq<string>): (r: ReminderUpdate)
    ensures |args| == 0 ==> r.action == ShowCurrent(current) && r.reminder == current
    ensures |args| > 0 && IsClearWord(args[0]) ==> r.action == Cleared && r.reminder == None
    ensures |args| > 0 && !IsClearWord(args[0]) ==>
              r.action == SetTo(JoinSpaced(args)) && r.reminder == Some(JoinSpaced(args))
  {
    if |args| == 0 then ReminderUpdate(ShowCurrent(GetReminder(current)), current)
    else if IsClearWord(args[0]) then ReminderUpdate(Cleared, ClearReminder(current))
    else
      var text := JoinSpaced(args);
      ReminderUpdate(SetTo(text), AddReminder(current, text))
  }

  /** The clear word is recognised in every spelling of upper and lower
      case letters, and in no other five-letter word. */
  lemma ClearWordAnyCase(w: string)
    ensures IsClearWord(w) <==>
              |w| == 5 && forall i :: 0 <= i < 5 ==> w[i] == "clear"[i] || w[i] == "CLEAR"[i]
  {
  }

  /** Last write wins: of two reminders set before delivery only the second
      is pending, and reading it does not consume it. */
  lemma LastWriteWins(current: Reminder, first: seq<string>, second: seq<string>)
    requires |first| > 0 && !IsClearWord(first[0])
    requires |second| > 0 && !IsClearWord(second[0])
    ensures ReminderCommand(ReminderCommand(current, first).reminder, second).reminder == Some(JoinSpaced(second))
    ensures GetReminder(ReminderCommand(ReminderCommand(current, first).reminder, second).reminder)
            == Some(JoinSpaced(second))
  {
  }

  /** Extra arguments after "clear" do not matter, and after clearing there is
      nothing to read. */
  lemma ClearIgnoresRest(current: Reminder, args: seq<string>)
    requires |args| > 0 && IsClearWord(args[0])
    ensures ReminderCommand(current, args).reminder == None
    ensures GetReminder(ReminderCommand(current, args).reminder).None?
  {
  }

  /** A reminder set from the words of a command is stored with those words
      intact: splitting the stored text the way the bot splits a command
      yields the arguments again. */
  lemma {:induction false} StoredReminderKeepsWords(current: Reminder, args: seq<string>)
    requires |args| > 0 && !IsClearWord(args[0])
    requires forall k :: 0 <= k < |args| ==> IsWord(args[k])
    ensures ReminderCommand(current, args).reminder.Some?
    ensures Words(ReminderCommand(current, args).reminder.value) == args
  {
    WordsOfJoin(args);
  }
}

=== FILE: reports.dfy ===
/** The growth report: produced from today's log once it holds at least
    three conversations, sent automatically at most once a day, and on
    request as often as the parent asks. The report text itself comes from
    the dialogue provider and is an input here (`None` when the provider
    call fails). */
module Reports {
  import opened Basics
  import opened Daily
  import opened Delivery

  /** Conversations needed before a report is made. */
  const ReportThreshold: int := 3

  /** `generate_growth_report`: nothing below the threshold, otherwise what
      the provider produced. */
  function GenerateGrowthReport(log: seq<Conversation>, generated: Option<string>): (r: Option<string>)
    ensures |log| < ReportThreshold ==> r.None?
    ensures |log| >= ReportThreshold ==> r == generated
  {
    if |log| < ReportThreshold then None else generated
  }

  /** The automatic trigger after a turn: the state afterwards and, when a
      report was produced, its text and how its delivery went. */
  datatype AutoReport = AutoReport(day: DailyState, sent: Option<SentReport>)

  /** A report handed to the retrying send: the wire text and its delivery. */
  datatype SentReport = SentReport(text: string, delivery: Attempts)

  /** The trigger fires on a day whose count reached the threshold and whose
      report has not been produced yet. */
  predicate AutoReportDue(d: DailyState)
  {
    d.count >= ReportThreshold && !d.reportGenerated
  }

  /** The report rule at the end of a turn: when due, generate; when a
      non-empty report comes back, send it with retry and mark the day as
      reported, whether or not the delivery went through. */
  function AutoReportStep(d: DailyState, generated: Option<string>, linked: bool, sends: seq<bool>): (r: AutoReport)
    ensures r.sent.Some? <==> AutoReportDue(d) && Truthy(GenerateGrowthReport(d.log, generated))
    ensures r.sent.Some? ==> r.sent.value.text == ReportText(GenerateGrowthReport(d.log, generated).value)
    ensures r.sent.Some? ==> r.sent.value.delivery == Deliver(linked, sends)
    ensures r.day == d.(reportGenerated := d.reportGenerated || r.sent.Some?)
  {
    if AutoReportDue(d) then
      var report := GenerateGrowthReport(d.log, generated);
      if Truthy(report) then
        AutoReport(d.(reportGenerated := true), Some(SentReport(ReportText(report.value), Deliver(linked, sends))))
      else AutoReport(d, None)
    else AutoReport(d, None)
  }

  /** Once today's report is produced the automatic trigger stays silent,
      however many more conversations follow. */
  lemma AutoReportOncePerDay(d: DailyState, generated: Option<string>, linked: bool, sends: seq<bool>)
    requires d.reportGenerated
    ensures AutoReportStep(d, generated, linked, sends) == AutoReport(d, None)
  {
  }

  /** Below the threshold no report is produced, even when the provider would
      have written one. */
  lemma NoAutoReportBelowThreshold(d: DailyState, generated: Option<string>, linked: bool, sends: seq<bool>)
    requires CountMatchesLog(d) && d.count < ReportThreshold
    ensures AutoReportStep(d, generated, linked, sends).sent.None?
  {
  }

  /** A reply the parent gets to `/report`. */
  datatype ReportReply =
    | NeedMore(count: int, missing: int)   // fewer than three conversations today
    | Generating                           // the notice sent before the provider is asked
    | ReportReady(text: string)            // the report itself
    | ReportFailed                         // the provider produced nothing

  /** The state after `/report` and the replies it sends, in order. */
  datatype OnDemand = OnDemand(day: DailyState, replies: seq<ReportReply>)

  /** `report_command` once the sender is known to be the parent: reset for
      today, then answer from today's log. The report flag is neither read
      nor written. */
  function OnDemandReport(d: DailyState, today: Date, generated: Option<string>): (r: OnDemand)
    ensures r.day == ResetDailyUsage(d, today)
    ensures |r.day.log| < ReportThreshold ==> r.replies == [NeedMore(r.day.count, ReportThreshold - r.day.count)]
    ensures |r.day.log| >= ReportThreshold && Truthy(generated) ==> r.replies == [Generating, ReportReady(generated.value)]
    ensures |r.day.log| >= ReportThreshold && !Truthy(generated) ==> r.replies == [Generating, ReportFailed]
  {
    var d' := ResetDailyUsage(d, today);
    if |d'.log| < ReportThreshold then OnDemand(d', [NeedMore(d'.count, ReportThreshold - d'.count)])
    else
      var report := GenerateGrowthReport(d'.log, generated);
      OnDemand(d', [Generating, if Truthy(report) then ReportReady(report.value) else ReportFailed])
  }

  /** The on-demand report does not depend on whether today's automatic
      report was produced, and leaves that flag as it was. */
  lemma OnDemandIgnoresFlag(d: DailyState, today: Date, generated: Option<string>, flag: bool)
    requires d.lastReset == Some(today)
    ensures OnDemandReport(d.(reportGenerated := flag), today, generated).replies == OnDemandReport(d, today, generated).replies
    ensures OnDemandReport(d, today, generated).day.reportGenerated == d.reportGenerated
  {
  }
}

=== FILE: session.dfy ===
/** One turn of the companion's main loop, as a pure transition. A turn
    checks the budget for `today`, credits a minute for any recording, has
    the recording transcribed, speaks a pending reminder, answers or
    forwards what the child said, logs the exchange and, when due, sends
    the day's growth report. Everything the outside world contributes (the
    recording, the transcript, the model's answer, the report text and the
    outcome of each send attempt) arrives in a `TurnInput`. */
module Session {
  import opened Basics
  import opened Daily
  import opened Reminders
  import opened Dialogue
  import opened Delivery
  import opened Reports

  /** The state the loop carries from turn to turn. `history` lives for the
      whole process and is not reset with the day. */
  datatype SessionState = SessionState(day: DailyState, reminder: Reminder, history: seq<ChatMessage>)

  const Start: SessionState := SessionState(Daily.Initial, None, [])

  /** What the outside world contributes to one turn. */
  datatype TurnInput = TurnInput(
    audio: Option<seq<int>>,     // the recorder's result; None when nothing was captured or the device failed
    transcript: Option<string>,  // the transcription; None when that call raised
    reply: Option<string>,       // the dialogue model's answer; None when that call raised
    clock: string,               // the `%H:%M` time the exchange is logged under
    forwardSends: seq<bool>,     // outcomes of the attempts to forward a child message
    report: Option<string>,      // what the report request returns; None when it failed
    reportSends: seq<bool>       // outcomes of the attempts to send the report
  )

  /** What a turn does to the outside world, in order. */
  datatype Effect =
    | Speak(text: string)
    | SendChildMessage(wire: string, delivery: Attempts)
    | SendReport(wire: string, delivery: Attempts)

  /** How the loop goes on: next turn, budget used up (the loop ends with a
      farewell), or an exception reached the loop's catch-all (it ends). */
  datatype Status = Continue | OutOfTime | Crashed

  /** The state after the turn, how the loop goes on, the effects, and the
      messages put to the dialogue model if it was asked. */
  datatype TurnResult = TurnResult(session: SessionState, status: Status, effects: seq<Effect>,
                                   request: Option<seq<ChatMessage>>)

  /** Minutes credited per recorded turn, whatever the recording's length. */
  const MinutesPerTurn: int := 1

  const Farewell: string := "오늘은 여기까지야. 내일 다시 만나자!"

  /** How a pending reminder is spoken. */
  function ReminderSpeech(reminder: string): string
  {
    "아, 맞다! 엄마가 말씀하신 게 있어. " + reminder + "라고 하셨어. 잊지 말고 해야 해!"
  }

  /** A minute is credited when the recorder returned non-empty audio. */
  predicate Credited(audio: Option<seq<int>>)
  {
    audio.Some? && |audio.value| > 0
  }

  /** Logging, speaking the answer and the automatic report: the tail of a
      turn once an answer exists. `s.history` already holds the child's
      text. */
  function FinishTurn(linked: bool, s: SessionState, text: string, answer: string, effects: seq<Effect>,
                      request: Option<seq<ChatMessage>>, input: TurnInput): (r: TurnResult)
    ensures r.status == Continue
    ensures r.session.day.log == s.day.log + [Conversation(input.clock, text, answer)]
    ensures r.session.day.count == s.day.count + 1
    ensures r.session.history == s.history + [Assistant(answer)]
    ensures r.session.reminder == s.reminder
    ensures r.session.day.(log := s.day.log, count := s.day.count, reportGenerated := s.day.reportGenerated) == s.day
    ensures |r.effects| > |effects|
    ensures r.effects[..|effects| + 1] == effects + [Speak(answer)]
    ensures r.request == request
  {
    var logged := AddConversation(s.day, input.clock, text, answer);
    var auto := AutoReportStep(logged, input.report, linked, input.reportSends);
    var reported := if auto.sent.Some? then [SendReport(auto.sent.value.text, auto.sent.value.delivery)] else [];
    var all := effects + [Speak(answer)] + reported;
    assert all[..|effects| + 1] == effects + [Speak(answer)];
    TurnResult(SessionState(auto.day, s.reminder, s.history + [Assistant(answer)]), Continue, all, request)
  }

  /** The turn after a non-empty transcript: reminder first, then the
      forwarding check or the dialogue model, then the tail. */
  function Respond(linked: bool, s: SessionState, text: string, input: TurnInput): (r: TurnResult)
    ensures r.session.reminder == (if Truthy(s.reminder) then None else s.reminder)
    ensures r.session.day.(log := s.day.log, count := s.day.count, reportGenerated := s.day.reportGenerated) == s.day
    ensures Truthy(s.reminder) ==> |r.effects| > 0 && r.effects[0] == Speak(ReminderSpeech(s.reminder.value))
    ensures |r.session.history| > |s.history|
    ensures r.session.history[..|s.history| + 1] == s.history + [User(text)]
    ensures IsForwardRequest(text) ==> r.request.None? && r.status == Continue
    ensures !IsForwardRequest(text) ==> r.request == Some(RequestAsWritten(text, s.history))
    ensures r.status == Crashed <==> !IsForwardRequest(text) && input.reply.None?
    ensures r.status == Crashed ==> r.session.day == s.day
    ensures IsForwardRequest(text) ==>
              r.session.day.log == s.day.log + [Conversation(input.clock, text, ForwardAck)]
              && r.session.day.count == s.day.count + 1
    ensures !IsForwardRequest(text) && input.reply.Some? ==>
              r.status == Continue
              && r.session.day.log == s.day.log + [Conversation(input.clock, text, input.reply.value)]
              && r.session.day.count == s.day.count + 1
  {
    var spoken := if Truthy(s.reminder) then [Speak(ReminderSpeech(s.reminder.value))] else [];
    var reminder := if Truthy(s.reminder) then ClearReminder(s.reminder) else s.reminder;
    var asked := s.(reminder := reminder, history := s.history + [User(text)]);
    match RouteMessage(text, asked.history)
    case Forward(m) =>
      var sent := SendChildMessage(ChildMessageText(m), Deliver(linked, input.forwardSends));
      var r := FinishTurn(linked, asked, text, ForwardAck, spoken + [sent], None, input);
      assert r.effects[..|spoken| + 2] == spoken + [sent] + [Speak(ForwardAck)];
      r
    case Ask(messages) =>
      match input.reply
      case None => TurnResult(asked, Crashed, spoken, Some(messages))
      case Some(answer) =>
        var r := FinishTurn(linked, asked, text, answer, spoken, Some(messages), input);
        assert r.effects[..|spoken| + 1] == spoken + [Speak(answer)];
        r
  }

  /** One pass of the main loop. */
  function Turn(linked: bool, s: SessionState, today: Date, input: TurnInput): (r: TurnResult)
    ensures r.session.day.lastReset == Some(today)
    ensures r.session.day.cap == s.day.cap
    ensures r.status == OutOfTime <==> !CheckTimeLimit(s.day, today).allowed
    ensures r.session.day.used ==
              ResetDailyUsage(s.day, today).used
              + (if r.status != OutOfTime && Credited(input.audio) then MinutesPerTurn else 0)
    ensures r.status == OutOfTime ==> r.effects == [Speak(Farewell)] && r.session.reminder == s.reminder
    ensures r.request.Some? ==> input.transcript.Some? && !IsForwardRequest(input.transcript.value)
  {
    var check := CheckTimeLimit(s.day, today);
    var d := check.day;
    if !check.allowed then TurnResult(s.(day := d), OutOfTime, [Speak(Farewell)], None)
    else
      var credited := if Credited(input.audio) then AddUsageTime(d, MinutesPerTurn) else d;
      var s' := s.(day := credited);
      if input.audio.None? then TurnResult(s', Crashed, [], None)
      else match input.transcript
        case None => TurnResult(s', Crashed, [], None)
        case Some(text) =>
          if text == "" then TurnResult(s', Continue, [], None)
          else Respond(linked, s', text, input)
  }

  /** The same turn with the silence the recorder reports treated as the
      "nothing heard, try again" case: no minute, no transcription, next
      turn. */
  function TurnSilenceRetries(linked: bool, s: SessionState, today: Date, input: TurnInput): (r: TurnResult)
    ensures input.audio.None? && CheckTimeLimit(s.day, today).allowed ==>
              r == TurnResult(s.(day := ResetDailyUsage(s.day, today)), Continue, [], None)
    ensures !(input.audio.None? && CheckTimeLimit(s.day, today).allowed) ==> r == Turn(linked, s, today, input)
  {
    if input.audio.None? && CheckTimeLimit(s.day, today).allowed then
      TurnResult(s.(day := ResetDailyUsage(s.day, today)), Continue, [], None)
    else Turn(linked, s, today, input)
  }

  /** What a turn with time left does with each outcome of recording and
      transcription: no audio or a failed transcription ends the loop with
      nothing logged, an empty transcript goes on to the next turn with
      nothing logged, and a heard text that is forwarded or answered is
      logged and counted once. */
  lemma TurnOutcome(linked: bool, s: SessionState, today: Date, input: TurnInput)
    requires CheckTimeLimit(s.day, today).allowed
    ensures var r := Turn(linked, s, today, input);
            var d := AddUsageTime(ResetDailyUsage(s.day, today), if Credited(input.audio) then MinutesPerTurn else 0);
            && (input.audio.None? || input.transcript.None? ==>
                  r.status == Crashed && r.effects == [] && r.session == s.(day := d))
            && (input.audio.Some? && input.transcript == Some("") ==>
                  r.status == Continue && r.effects == [] && r.session == s.(day := d))
            && (input.audio.Some? && input.transcript.Some? && input.transcript.value != "" ==>
                  var text := input.transcript.value;
                  && (IsForwardRequest(text) ==>
                        r.status == Continue
                        && r.session.day.log == d.log + [Conversation(input.clock, text, ForwardAck)]
                        && r.session.day.count == d.count + 1)
                  && (!IsForwardRequest(text) && input.reply.Some? ==>
                        r.status == Continue
                        && r.session.day.log == d.log + [Conversation(input.clock, text, input.reply.value)]
                        && r.session.day.count == d.count + 1)
                  && (!IsForwardRequest(text) && input.reply.None? ==>
                        r.status == Crashed && r.session.day == d))
  {
  }

  /** As written, a turn whose recording came back empty ends the session:
      the missing audio reaches the transcription and raises there. */
  lemma SilenceEndsSession(linked: bool, s: SessionState, today: Date, input: TurnInput)
    requires CheckTimeLimit(s.day, today).allowed && input.audio.None?
    ensures Turn(linked, s, today, input).status == Crashed
  {
  }

  /** With the correction a silent turn neither ends the session nor uses a
      minute. */
  lemma SilenceRetriesFreely(linked: bool, s: SessionState, today: Date, input: TurnInput)
    requires CheckTimeLimit(s.day, today).allowed && input.audio.None?
    ensures TurnSilenceRetries(linked, s, today, input).status == Continue
    ensures TurnSilenceRetries(linked, s, today, input).session.day == ResetDailyUsage(s.day, today)
    ensures TurnSilenceRetries(linked, s, today, input).effects == []
  {
  }

  /** The counter keeps matching the log through every turn. */
  lemma TurnKeepsCountMatchesLog(linked: bool, s: SessionState, today: Date, input: TurnInput)
    requires CountMatchesLog(s.day) || s.day.lastReset != Some(today)
    ensures CountMatchesLog(Turn(linked, s, today, input).session.day)
  {
  }

  /** The budget scenario: cap 30 with 29 minutes used allows one more turn;
      once it has recorded anything the next check says no time is left,
      whatever else happened in that turn. */
  lemma LastMinuteTurn(linked: bool, s: SessionState, today: Date, input: TurnInput)
    requires s.day.lastReset == Some(today) && s.day.cap == 30 && s.day.used == 29
    requires Credited(input.audio)
    ensures Turn(linked, s, today, input).status != OutOfTime
    ensures CheckTimeLimit(Turn(linked, s, today, input).session.day, today).allowed == false
    ensures CheckTimeLimit(Turn(linked, s, today, input).session.day, today).remaining == 0
  {
  }

  /** A persona-free history stays persona-free through a response, and
      the request it makes holds no persona either. */
  lemma RespondNeverSendsPersona(linked: bool, s: SessionState, text: string, input: TurnInput)
    requires forall i :: 0 <= i < |s.history| ==> s.history[i] != Persona
    ensures var r := Respond(linked, s, text, input);
            && (forall i :: 0 <= i < |r.session.history| ==> r.session.history[i] != Persona)
            && (r.request.Some? ==> forall i :: 0 <= i < |r.request.value| ==> r.request.value[i] != Persona)
  {
    var asked := s.history + [User(text)];
    if !IsForwardRequest(text) {
      PersonaNeverSent(text, s.history);
    }
    if IsForwardRequest(text) || input.reply.Some? {
      var answer := if IsForwardRequest(text) then ForwardAck else input.reply.value;
      assert Respond(linked, s, text, input).session.history == asked + [Assistant(answer)];
    }
  }

  /** No persona ever reaches the model from the loop: the history never
      holds one, and every request is the history plus the text twice. */
  lemma TurnNeverSendsPersona(linked: bool, s: SessionState, today: Date, input: TurnInput)
    requires forall i :: 0 <= i < |s.history| ==> s.history[i] != Persona
    ensures var r := Turn(linked, s, today, input);
            && (forall i :: 0 <= i < |r.session.history| ==> r.session.history[i] != Persona)
            && (r.request.Some? ==> forall i :: 0 <= i < |r.request.value| ==> r.request.value[i] != Persona)
  {
    var check := CheckTimeLimit(s.day, today);
    if check.allowed && input.audio.Some? && input.transcript.Some? && input.transcript.value != "" {
      var credited := if Credited(input.audio) then AddUsageTime(check.day, MinutesPerTurn) else check.day;
      RespondNeverSendsPersona(linked, s.(day := credited), input.transcript.value, input);
    }
  }

  /** A message for a parent is forwarded, never put to the model, answered
      with the fixed acknowledgement, and still logged and counted. */
  lemma ForwardedTurnIsLogged(linked: bool, s: SessionState, today: Date, input: TurnInput, text: string)
    requires CheckTimeLimit(s.day, today).allowed && input.audio.Some?
    requires input.transcript == Some(text) && text != "" && IsForwardRequest(text)
    ensures var r := Turn(linked, s, today, input);
            var d := AddUsageTime(ResetDailyUsage(s.day, today), if Credited(input.audio) then 1 else 0);
            && r.status == Continue
            && r.request.None?
            && r.session.day.log == d.log + [Conversation(input.clock, text, ForwardAck)]
            && r.session.day.count == d.count + 1
            && SendChildMessage(ChildMessageText(text), Deliver(linked, input.forwardSends)) in r.effects
  {
  }

  /** The reminder scenario: a pending reminder is spoken first in the next
      turn that hears something, before the answer, and is gone afterwards,
      so the turn after that has none to speak. */
  lemma ReminderSpokenOnce(linked: bool, s: SessionState, today: Date, input: TurnInput, next: TurnInput)
    requires CheckTimeLimit(s.day, today).allowed && input.audio.Some?
    requires input.transcript.Some? && input.transcript.value != ""
    requires Truthy(s.reminder)
    ensures var r := Turn(linked, s, today, input);
            && r.effects[0] == Speak(ReminderSpeech(s.reminder.value))
            && r.session.reminder.None?
            && Turn(linked, r.session, today, next).session.reminder.None?
  {
  }

  /** How many growth reports a run of effects sends. */
  function ReportsSent(effects: seq<Effect>): nat
  {
    if |effects| == 0 then 0
    else ReportsSent(effects[..|effects| - 1]) + (if effects[|effects| - 1].SendReport? then 1 else 0)
  }

  lemma {:induction false} ReportsSentAppend(a: seq<Effect>, b: seq<Effect>)
    ensures ReportsSent(a + b) == ReportsSent(a) + ReportsSent(b)
    decreases |b|
  {
    if |b| > 0 {
      assert (a + b)[..|a + b| - 1] == a + b[..|b| - 1];
      ReportsSentAppend(a, b[..|b| - 1]);
    } else {
      assert a + b == a;
    }
  }

  /** Effects that are not reports add none. */
  lemma {:induction false} NoReportsAmong(effects: seq<Effect>)
    requires forall i :: 0 <= i < |effects| ==> !effects[i].SendReport?
    ensures ReportsSent(effects) == 0
    decreases |effects|
  {
    if |effects| > 0 {
      NoReportsAmong(effects[..|effects| - 1]);
    }
  }

  /** The report facts of one tail: at most one report, and one only when
      the day is then marked reported; nothing when it already was. */
  lemma FinishTurnReports(linked: bool, s: SessionState, text: string, answer: string, effects: seq<Effect>,
                          request: Option<seq<ChatMessage>>, input: TurnInput)
    requires forall i :: 0 <= i < |effects| ==> !effects[i].SendReport?
    ensures var r := FinishTurn(linked, s, text, answer, effects, request, input);
            && ReportsSent(r.effects) <= 1
            && r.session.day.lastReset == s.day.lastReset
            && (ReportsSent(r.effects) == 1 ==> r.session.day.reportGenerated)
            && (s.day.reportGenerated ==> ReportsSent(r.effects) == 0 && r.session.day.reportGenerated)
            && (ReportsSent(r.effects) == 1 <==>
                  AutoReportDue(AddConversation(s.day, input.clock, text, answer))
                  && Truthy(GenerateGrowthReport(AddConversation(s.day, input.clock, text, answer).log, input.report)))
  {
    var logged := AddConversation(s.day, input.clock, text, answer);
    var auto := AutoReportStep(logged, input.report, linked, input.reportSends);
    var reported := if auto.sent.Some? then [SendReport(auto.sent.value.text, auto.sent.value.delivery)] else [];
    var head := effects + [Speak(answer)];
    NoReportsAmong(head);
    ReportsSentAppend(head, reported);
    if auto.sent.Some? {
      assert ReportsSent(reported) == ReportsSent([]) + 1;
    }
  }

  /** The report facts once something was heard. */
  lemma RespondReports(linked: bool, s: SessionState, text: string, input: TurnInput)
    ensures var r := Respond(linked, s, text, input);
            && ReportsSent(r.effects) <= 1
            && r.session.day.lastReset == s.day.lastReset
            && (ReportsSent(r.effects) == 1 ==> r.session.day.reportGenerated)
            && (s.day.reportGenerated ==> ReportsSent(r.effects) == 0 && r.session.day.reportGenerated)
            && ((s.day.count == 2 && |s.day.log| == 2 && !s.day.reportGenerated
                 && input.reply.Some? && Truthy(input.report)) ==> ReportsSent(r.effects) == 1)
  {
    var spoken := if Truthy(s.reminder) then [Speak(ReminderSpeech(s.reminder.value))] else [];
    var reminder := if Truthy(s.reminder) then ClearReminder(s.reminder) else s.reminder;
    var asked := s.(reminder := reminder, history := s.history + [User(text)]);
    match RouteMessage(text, asked.history)
    case Forward(m) =>
      var sent := SendChildMessage(ChildMessageText(m), Deliver(linked, input.forwardSends));
      FinishTurnReports(linked, asked, text, ForwardAck, spoken + [sent], None, input);
    case Ask(messages) =>
      match input.reply
      case None =>
        NoReportsAmong(spoken);
      case Some(answer) =>
        FinishTurnReports(linked, asked, text, answer, spoken, Some(messages), input);
  }

  /** The report facts of one turn. */
  lemma TurnReports(linked: bool, s: SessionState, today: Date, input: TurnInput)
    ensures var r := Turn(linked, s, today, input);
            && ReportsSent(r.effects) <= 1
            && (ReportsSent(r.effects) == 1 ==> r.session.day.reportGenerated)
            && (s.day.lastReset == Some(today) && s.day.reportGenerated ==>
                  ReportsSent(r.effects) == 0 && r.session.day.reportGenerated)
  {
    var check := CheckTimeLimit(s.day, today);
    var d := check.day;
    if !check.allowed {
      NoReportsAmong([Speak(Farewell)]);
    } else if input.audio.None? || input.transcript.None? || input.transcript.value == "" {
      NoReportsAmong([]);
    } else {
      var credited := if Credited(input.audio) then AddUsageTime(d, MinutesPerTurn) else d;
      RespondReports(linked, s.(day := credited), input.transcript.value, input);
    }
  }

  /** A run of turns: the state it leaves, everything it did, how many
      turns it took and how the last one ended (`Continue` when the inputs
      ran out first). */
  datatype DayRun = DayRun(session: SessionState, effects: seq<Effect>, turns: nat, status: Status)

  /** The turns of one day, run until the loop stops. */
  function RunDay(linked: bool, s: SessionState, today: Date, inputs: seq<TurnInput>): (r: DayRun)
    ensures r.turns <= |inputs|
    ensures r.turns < |inputs| ==> r.status != Continue
    ensures |inputs| == 0 ==> r == DayRun(s, [], 0, Continue)
    ensures |inputs| > 0 ==> r.turns >= 1 && r.session.day.lastReset == Some(today)
    ensures r.session.day.cap == s.day.cap
    ensures r.status == OutOfTime ==> |r.effects| > 0 && r.effects[|r.effects| - 1] == Speak(Farewell)
    ensures |inputs| > 0 ==> Turn(linked, s, today, inputs[0]).effects <= r.effects
    decreases |inputs|
  {
    if |inputs| == 0 then DayRun(s, [], 0, Continue)
    else
      var t := Turn(linked, s, today, inputs[0]);
      if t.status != Continue then DayRun(t.session, t.effects, 1, t.status)
      else
        var rest := RunDay(linked, t.session, today, inputs[1..]);
        DayRun(rest.session, t.effects + rest.effects, rest.turns + 1, rest.status)
  }

  /** The loop stops at the first turn that does not continue: the run is
      exactly the run of the turns it took, and every shorter run of those
      turns kept going. */
  lemma {:induction false} RunDayStopsAtFirst(linked: bool, s: SessionState, today: Date, inputs: seq<TurnInput>)
    ensures var r := RunDay(linked, s, today, inputs);
            && RunDay(linked, s, today, inputs[..r.turns]) == r
            && forall k :: 0 <= k < r.turns ==>
                 RunDay(linked, s, today, inputs[..k]).status == Continue
                 && RunDay(linked, s, today, inputs[..k]).turns == k
    decreases |inputs|
  {
    var r := RunDay(linked, s, today, inputs);
    assert inputs[..0] == [];
    if |inputs| > 0 {
      var t := Turn(linked, s, today, inputs[0]);
      if t.status != Continue {
        assert inputs[..1][0] == inputs[0] && inputs[..1][1..] == [];
      } else {
        var tail := inputs[1..];
        var rest := RunDay(linked, t.session, today, tail);
        RunDayStopsAtFirst(linked, t.session, today, tail);
        assert inputs[..r.turns][0] == inputs[0];
        assert inputs[..r.turns][1..] == tail[..rest.turns];
        forall k | 0 < k < r.turns
          ensures RunDay(linked, s, today, inputs[..k]).status == Continue
          ensures RunDay(linked, s, today, inputs[..k]).turns == k
        {
          assert inputs[..k][0] == inputs[0];
          assert inputs[..k][1..] == tail[..k - 1];
        }
      }
    }
  }

  /** From any state whose counter matches its log, every run keeps the
      counter equal to the log. */
  lemma {:induction false} RunDayKeepsCountMatchesLog(linked: bool, s: SessionState, today: Date, inputs: seq<TurnInput>)
    requires CountMatchesLog(s.day)
    ensures CountMatchesLog(RunDay(linked, s, today, inputs).session.day)
    decreases |inputs|
  {
    if |inputs| > 0 {
      var t := Turn(linked, s, today, inputs[0]);
      TurnKeepsCountMatchesLog(linked, s, today, inputs[0]);
      if t.status == Continue {
        RunDayKeepsCountMatchesLog(linked, t.session, today, inputs[1..]);
      }
    }
  }

  /** The process starts with a counter that matches its empty log, so the
      counter matches the log after any run of turns. */
  lemma StartKeepsCountMatchesLog(linked: bool, today: Date, inputs: seq<TurnInput>)
    ensures CountMatchesLog(RunDay(linked, Start, today, inputs).session.day)
  {
    RunDayKeepsCountMatchesLog(linked, Start, today, inputs);
  }

  /** The automatic report goes out at most once a day however many turns
      follow, and not at all on a day that already has one. */
  lemma {:induction false} AtMostOneReportPerDay(linked: bool, s: SessionState, today: Date, inputs: seq<TurnInput>)
    ensures ReportsSent(RunDay(linked, s, today, inputs).effects)
            <= (if s.day.lastReset == Some(today) && s.day.reportGenerated then 0 else 1)
    ensures s.day.lastReset == Some(today) && s.day.reportGenerated ==>
              RunDay(linked, s, today, inputs).session.day.reportGenerated
    decreases |inputs|
  {
    if |inputs| > 0 {
      var t := Turn(linked, s, today, inputs[0]);
      TurnReports(linked, s, today, inputs[0]);
      if t.status == Continue {
        var rest := RunDay(linked, t.session, today, inputs[1..]);
        AtMostOneReportPerDay(linked, t.session, today, inputs[1..]);
        ReportsSentAppend(t.effects, rest.effects);
      }
    }
  }

  /** The report scenario: the turn that logs the third conversation of the
      day sends the report, and a fourth turn on the same day does not. */
  lemma ThirdTurnReports(linked: bool, s: SessionState, today: Date, third: TurnInput, fourth: TurnInput)
    requires s.day.lastReset == Some(today) && CountMatchesLog(s.day) && s.day.count == 2
    requires !s.day.reportGenerated && s.day.used < s.day.cap
    requires third.audio.Some? && third.transcript.Some? && third.transcript.value != ""
    requires third.reply.Some? && Truthy(third.report)
    ensures var r := Turn(linked, s, today, third);
            && ReportsSent(r.effects) == 1
            && r.session.day.reportGenerated
            && ReportsSent(Turn(linked, r.session, today, fourth).effects) == 0
  {
    var r := Turn(linked, s, today, third);
    var credited := if Credited(third.audio) then AddUsageTime(s.day, MinutesPerTurn) else s.day;
    var s' := s.(day := credited);
    assert r == Respond(linked, s', third.transcript.value, third);
    RespondReports(linked, s', third.transcript.value, third);
    TurnReports(linked, r.session, today, fourth);
  }
}

=== FILE: text.dfy ===
/** String operations the bot and the dialogue routing rely on, written as
    Python defines them: `needle in haystack`, `str.lower()` on ASCII,
    `str.split()` and `" ".join(words)`. */
module Text {

  /** `needle` occurs in `haystack` starting at index `i`. */
  predicate OccursAt(haystack: string, needle: string, i: int)
  {
    0 <= i && i + |needle| <= |haystack| && haystack[i..i + |needle|] == needle
  }

  /** Python's `needle in haystack` for strings (the empty needle occurs
      everywhere). */
  predicate Contains(haystack: string, needle: string)
  {
    exists i | 0 <= i <= |haystack| - |needle| :: OccursAt(haystack, needle, i)
  }

  /** Left-to-right scan for `needle`, the way the substring test is
      evaluated. */
  method Find(haystack: string, needle: string) returns (found: bool)
    ensures found <==> Contains(haystack, needle)
  {
    if |needle| > |haystack| {
      return false;
    }
    var i := 0;
    while i <= |haystack| - |needle|
      invariant 0 <= i <= |haystack| - |needle| + 1
      invariant forall j :: 0 <= j < i ==> !OccursAt(haystack, needle, j)
    {
      if haystack[i..i + |needle|] == needle {
        assert OccursAt(haystack, needle, i);
        return true;
      }
      i := i + 1;
    }
    return false;
  }

  /** `c.lower()` for the ASCII letters; every other character is its own
      lower case here. */
  function LowerChar(c: char): (r: char)
    ensures 'A' <= c <= 'Z' ==> 'a' <= r <= 'z' && r as int - c as int == 32
    ensures !('A' <= c <= 'Z') ==> r == c
  {
    if 'A' <= c <= 'Z' then (c as int + 32) as char else c
  }

  /** `s.lower()`, character by character. */
  function Lower(s: string): (r: string)
    ensures |r| == |s|
    ensures forall i :: 0 <= i < |s| ==> r[i] == LowerChar(s[i])
  {
    seq(|s|, i requires 0 <= i < |s| => LowerChar(s[i]))
  }

  /** The ASCII whitespace characters: space, tab, line feed, carriage
      return, vertical tab and form feed. `str.split()` also separates at
      the information separators `\x1c` to `\x1f` and at non-ASCII spaces;
      those are not separators here. */
  predicate IsSpace(c: char)
  {
    c == ' ' || c == '\t' || c == '\n' || c == '\r' || c == '\U{000B}' || c == '\U{000C}'
  }

  /** A word as `str.split()` yields it: non-empty, no separator inside. */
  predicate IsWord(w: string)
  {
    |w| > 0 && forall i :: 0 <= i < |w| ==> !IsSpace(w[i])
  }

  /** Length of the longest prefix of `s` that holds no separator. */
  function WordLength(s: string): (n: nat)
    ensures n <= |s|
    ensures forall i :: 0 <= i < n ==> !IsSpace(s[i])
    ensures n < |s| ==> IsSpace(s[n])
  {
    if |s| == 0 || IsSpace(s[0]) then 0 else 1 + WordLength(s[1..])
  }

  /** `s.split()`: the maximal runs of non-separator characters, in order. */
  function Words(s: string): (ws: seq<string>)
    ensures forall k :: 0 <= k < |ws| ==> IsWord(ws[k])
    decreases |s|
  {
    if |s| == 0 then []
    else if IsSpace(s[0]) then Words(s[1..])
    else
      var n := WordLength(s);
      [s[..n]] + Words(s[n..])
  }

  /** `" ".join(ws)`. */
  function JoinSpaced(ws: seq<string>): (s: string)
    ensures |ws| == 1 ==> s == ws[0]
  {
    if |ws| == 0 then ""
    else if |ws| == 1 then ws[0]
    else ws[0] + " " + JoinSpaced(ws[1..])
  }

  /** A word followed by a separator (or nothing) is read as one word. */
  lemma WordLengthOfWord(w: string, rest: string)
    requires IsWord(w)
    requires |rest| == 0 || IsSpace(rest[0])
    ensures WordLength(w + rest) == |w|
    decreases |w|
  {
    if |w| > 1 {
      assert (w + rest)[1..] == w[1..] + rest;
      WordLengthOfWord(w[1..], rest);
    } else {
      assert (w + rest)[1..] == rest;
    }
  }

  /** Joining words with single spaces and splitting again gives the words
      back: the text a reminder stores is exactly what the command's
      arguments spelled. */
  lemma {:induction false} WordsOfJoin(ws: seq<string>)
    requires forall k :: 0 <= k < |ws| ==> IsWord(ws[k])
    ensures Words(JoinSpaced(ws)) == ws
    decreases |ws|
  {
    if |ws| == 0 {
    } else if |ws| == 1 {
      var w := ws[0];
      WordLengthOfWord(w, "");
      assert w + "" == w;
      assert w[|w|..] == [];
      assert w[..|w|] == w;
    } else {
      var w := ws[0];
      var tail := JoinSpaced(ws[1..]);
      var s := w + " " + tail;
      assert s == w + (" " + tail);
      WordLengthOfWord(w, " " + tail);
      assert s[..|w|] == w;
      assert s[|w|..] == " " + tail;
      assert (" " + tail)[1..] == tail;
      WordsOfJoin(ws[1..]);
      assert ws == [w] + ws[1..];
    }
  }
}
